=== FILE: README.md ===
# StrongHabit daily cycle, reminders and exercise list — a Dafny model

StrongHabit is a habit tracker: a user keeps a list of exercises, each with a
daily rep target, taps progress in through the day, and gets reminder
notifications while exercises are still open. This project models the pure
logic under that app as functions over immutable data and proves what it
promises:

- **Daily cycle** (`daily_cycle.dfy`, `calendar.dfy`): the per-exercise
  rollover that `resetExercisesForNewDay` computes at a day boundary, its
  user-id guard, the `isNewDay` calendar-date comparison, and the defaults
  `updateUserStats` fills in before writing stats.
- **Reminder decision** (`reminders.dfy`, `notifications.dfy`): one tick of
  the smart-reminder timer (active-hours guard, empty or all-complete list,
  randomised 60–90 minute spacing, recording the send time), plus permission
  requests, the enabled check, starting and stopping the timer, the app badge
  and streak-milestone notices.
- **Exercise list** (`exercises.dfy`): add, delete, clamped progress update,
  the completed/ongoing split, and the fall-back to an empty list when the
  stored list is missing or not an array.
- **Add-exercise form** (`add_exercise_form.dfy`, `decimal.dfy`): the digit
  filter on the target field, `parseInt(…, 10)` on it, and the submit payload.

`wrappers.dfy` holds `Option`/`Result` and JavaScript truthiness of optional
strings; `seqs.dfy` holds the one generic `Filter` (with its order, partition
and idempotence lemmas, the last used for the digit filter) that every `Array.prototype.filter` and the digit filter
are instances of.

Clock, randomness and the environment are parameters: `now` (milliseconds, or
an ISO string where the source stores one), the local hour, the local calendar
fields of a timestamp, the value `Math.random()` returned (a `real` in
`[0, 1)`) or, for a reminder check, the spacing threshold drawn from it,
whether the browser supports notifications or the badge API, and
what the permission prompt answers.

On the following points the code does less, or something other, than one
might expect of the app; the model follows the code:
- the reminder threshold is `60 min + Math.random() * 30 min`; computed
  exactly it stays below 90 minutes, but in double precision the largest
  draws round to exactly 90 minutes, so a reminder check accepts any
  threshold from 60 to 90 minutes inclusive;
- a next-day target is used whenever it is truthy (present and non-zero); the
  code does not check that it is larger than the old target;
- `checkExercisesAndNotify` does not touch the badge; the badge is only the
  separate `updateBadge` rule;
- celebration detection, missed-day streak decay, setting `lastReset` after a
  rollover and the worker message exchange do not appear in the code modelled
  here and are not modelled.

## Model

| member | source | states |
|---|---|---|
| `Decimal.DigitsOnly` | src/components/AddExerciseModal.js:94 | the filtered target text contains only the characters 0-9, and holds each digit exactly as often as the typed text does |
| `Decimal.DigitsOnlyAppend` | src/components/AddExerciseModal.js:94 | the filter works character by character, so kept digits stay in their original order |
| `Decimal.DigitsOnlyFixedPoint` | src/components/AddExerciseModal.js:94 | text is unchanged by the filter exactly when it is all digits |
| `Decimal.DigitsOnlyIdempotent` | src/components/AddExerciseModal.js:94 | filtering already-filtered text changes nothing |
| `Decimal.ParseInt10` | src/components/AddExerciseModal.js:16 | `parseInt` yields NaN exactly when the text does not start with a digit |
| `Decimal.ParseDigitText` | src/components/AddExerciseModal.js:16 | on non-empty digit text `parseInt(…, 10)` is the base-10 value of the whole text |
| `Decimal.ParseStopsAtNonDigit` | src/components/AddExerciseModal.js:16 | text after the leading digit run does not change the parsed value |
| `Decimal.ShowNat` | src/services/notificationService.js:347 | the decimal rendering of a day count is non-empty digit text without a leading zero |
| `Decimal.ValueOfShowNat` | src/services/notificationService.js:347 | the rendered number has the number as its base-10 value |
| `Decimal.ShowNatOfValue` | src/components/AddExerciseModal.js:16 | rendering the value of canonical digit text gives the text back |
| `Decimal.ParseShowRoundTrip` | src/components/AddExerciseModal.js:16 | parsing the rendering of a number gives the number back |
| `Exercises.AddExercise` | src/app/dashboard/page.js:80-88 | exactly one exercise is appended at the end, with the given name and target, id `Date.now()`, zero reps; earlier entries are untouched; non-negative reps and (for a fresh id) unique ids are kept |
| `Exercises.DeleteExercise` | src/app/dashboard/page.js:96-100 | no exercise with the id remains, every other exercise is kept, deleting an absent id changes nothing |
| `Exercises.DeleteExerciseAppend` | src/app/dashboard/page.js:98-100 | deletion keeps the remaining exercises in their original order |
| `Exercises.DeleteUndoesAdd` | src/app/dashboard/page.js:80-100 | deleting an exercise just added under a fresh id gives back the original list |
| `Exercises.UpdateProgress` | src/app/dashboard/page.js:106-116 | the matching exercise's reps become `max(0, (currentReps or 0) + change)` and never go negative, its other fields and every other exercise stay the same, length and order are kept |
| `Exercises.UndoProgress` | src/app/dashboard/page.js:109-112 | adding `k` reps and then taking `k` away restores every count when none was negative |
| `Exercises.CompletedExercises` | src/app/dashboard/page.js:123 | the completed section holds exactly the listed exercises with `(currentReps or 0) >= targetReps` |
| `Exercises.OngoingExercises` | src/app/dashboard/page.js:124 | the ongoing section holds exactly the listed exercises with `(currentReps or 0) < targetReps` |
| `Exercises.CompletedOngoingPartition` | src/app/dashboard/page.js:123-124 | the two sections partition the list: each exercise is in exactly one, multiplicities add up, lengths sum to the total |
| `Exercises.InitializeIsStable` | src/app/dashboard/page.js:17-23 | after the empty array is written for a missing entry, the next load reads back the same empty list and writes nothing |
| `Exercises.InitializeLocalStorage` | src/app/dashboard/page.js:14-30 | a stored array is loaded as is; no storage, a missing entry, malformed JSON or a non-array all give the empty list; only a missing entry is initialised to `[]` |
| `Calendar.IsNewDay` | src/services/database.js:481-492 | an absent last reset is always a new day; a new day means today's midnight is at least a full day after the last reset's midnight |
| `Calendar.DayNumberOrder` | src/services/database.js:487-491 | start-of-day values identify calendar dates and their order is calendar order, across month and leap-year lengths |
| `Calendar.IsNewDayIffLaterDate` | src/services/database.js:481-492 | with a last reset, it is a new day exactly when today's calendar date is strictly after the last reset's date |
| `Calendar.SameDateIsNotNewDay` | src/services/database.js:487-491 | a later check on the same date is never a new day, whatever the time of day |
| `Calendar.EarlierDateIsNotNewDay` | src/services/database.js:487-491 | a date earlier than the last reset is not a new day |
| `Calendar.NextDayNumber` | src/services/database.js:488-489 | the following date is exactly one day later, across month and year ends |
| `Calendar.NextDateIsNewDay` | src/services/database.js:481-492 | any time on the following date, even just after midnight, is a new day |
| `DailyCycle.DecayedTarget` | src/services/database.js:294 | a missed target drops by one and never below 1 |
| `DailyCycle.RolloverExercise` | src/services/database.js:285-301 | reps reset to 0 and the id is kept; completed with a truthy next-day target takes it; completed without one keeps its target; incomplete decays toward 1 |
| `DailyCycle.RolloverUpdates` | src/services/database.js:285-302 | one update per exercise, same ids in the same order, all reps 0, targets per the three cases; an incomplete exercise gets exactly its decayed target |
| `DailyCycle.ResetExercisesForNewDay` | src/services/database.js:281-302 | a missing user id is refused before any update is computed; otherwise one update per exercise, each the per-exercise rollover of the exercise at the same position |
| `DailyCycle.ResetRaisesOnlyThroughNextDayTarget` | src/services/database.js:285-301 | for a known user, a positive target without a next-day target is never raised and never drops below 1, and stays put exactly when the exercise was completed or the target was already 1 |
| `DailyCycle.RolledOver` | src/services/database.js:326-333 | the rows returned after the rollover keep name, id, creation time and order, with reps 0, each target the one the per-exercise rollover computes, and unique ids kept |
| `DailyCycle.RolledOverStartsOngoing` | src/services/database.js:285-300 | with positive targets and non-negative next-day targets, every exercise is ongoing again after a rollover |
| `DailyCycle.MissedDaysDecay` | src/services/database.js:293-294 | `k` missed days in a row lower the target to `max(1, target - k)`: the rollover is not idempotent |
| `DailyCycle.SanitizeStats` | src/services/database.js:383-405 | missing user id rejected first, non-object stats rejected next; a non-number streak becomes 0, a missing last reset becomes now, a missing last celebration becomes null; other values pass through |
| `DailyCycle.SanitizeStatsIdempotent` | src/services/database.js:400-405 | sanitised stats pass a second sanitising unchanged |
| `Reminders.Threshold` | src/services/notificationService.js:275-279 | computed exactly from a draw in `[0, 1)`, the spacing threshold lies in `[60, 90)` minutes, inside the range a reminder check accepts |
| `Reminders.CheckExercisesAndNotify` | src/services/notificationService.js:254-317 | a reminder is only sent for a readable list with incomplete exercises, reports their count, at least 60 minutes after a stored last reminder, and stores `now`; otherwise the stored time is unchanged; after a stored reminder it sends only once the elapsed time has reached the drawn threshold, and it skips as too soon only while the elapsed time is below it |
| `Reminders.CountOngoingIsLength` | src/services/notificationService.js:262-267 | the incomplete count a reminder reports is the length of the list of exercises below target |
| `Reminders.Tick` | src/services/notificationService.js:233-244 | outside `[startHour, endHour)` the tick does nothing whatever the exercises; a send happens only in active hours, once the time since the last one has reached the drawn threshold, and so 60 minutes or more after it |
| `Reminders.ThresholdDecides` | src/services/notificationService.js:273-283 | in active hours, with an exercise below target and a recorded reminder, a reminder goes out exactly when the elapsed time has reached the drawn threshold |
| `Reminders.DashboardAndReminderReadAlike` | src/app/dashboard/page.js:14-30 | where the reminder check reads a stored list the dashboard loads the same list, and where the check cannot read the entry the dashboard starts empty and writes nothing |
| `Reminders.NothingToRemind` | src/services/notificationService.js:258-267 | an empty list, or one with every exercise at target, never produces a reminder |
| `Reminders.FirstReminderIsSent` | src/services/notificationService.js:273-307 | with no stored last reminder, an incomplete exercise in active hours always gets a reminder carrying the incomplete count, and the stored time becomes `now` |
| `Reminders.NoReminderWithinMinInterval` | src/services/notificationService.js:273-283 | less than 60 minutes after the last reminder nothing is sent, whatever threshold was drawn |
| `Reminders.ReminderAfterMaxInterval` | src/services/notificationService.js:273-297 | 90 minutes or more after the last reminder, an incomplete exercise in active hours always gets one |
| `Reminders.RemindersAreSpaced` | src/services/notificationService.js:270-307 | over any run of ticks, consecutive reminders are at least 60 minutes apart, and the first is at least 60 minutes after the reminder recorded before the run |
| `Reminders.RunEndsAtLastSend` | src/services/notificationService.js:270-307 | after any run of ticks the stored reminder time is the last send time, or unchanged when nothing was sent |
| `Notifications.RequestPermission` | src/services/notificationService.js:39-60 | unsupported answers `'unsupported'`; already granted answers `'granted'` without prompting; otherwise the prompt's answer is returned and remembered; an answer whose storing throws is taken over as the status yet answered as `'denied'`; a failing prompt answers `'denied'` and changes nothing |
| `Notifications.ReplyMatchesStatusUnlessStoreFails` | src/services/notificationService.js:48-59 | the reply reports the status the service keeps unless storing the answer throws, in which case `'denied'` is replied while a granted answer still enables notifications |
| `Notifications.IsEnabled` | src/services/notificationService.js:63-65 | notifications are enabled exactly when the browser supports them and permission is granted |
| `Notifications.GrantIsRemembered` | src/services/notificationService.js:44-65 | after a granted request the service is enabled and the next request does not prompt |
| `Notifications.ScheduleSmartReminders` | src/services/notificationService.js:212-247 | returns false and changes nothing unless enabled; otherwise the timer runs for the given hours and one check runs at once, its reminder shown exactly when it is sent |
| `Notifications.ScheduleRemindsAtOnce` | src/services/notificationService.js:232-247 | starting reminders with an exercise below target, inside active hours and with no reminder recorded, shows a reminder at once |
| `Notifications.ScheduleDailyReminders` | src/services/notificationService.js:328-331 | the legacy entry point runs smart reminders from 9:00 to 21:00: refused and changing nothing unless enabled, otherwise with an immediate check whose reminder is shown exactly when it is sent |
| `Notifications.DailyRemindersQuietOutsideHours` | src/services/notificationService.js:233-247 | starting the daily reminders before 9:00 or from 21:00 on shows nothing at once and keeps the stored reminder time |
| `Notifications.RescheduleReplacesTimer` | src/services/notificationService.js:212-229 | scheduling clears the running timer first, so scheduling twice leaves one timer for the latest hours and clearing stops it |
| `Notifications.ClearReminderInterval` | src/services/notificationService.js:320-325 | no reminder timer runs afterwards |
| `Notifications.TimerTick` | src/services/notificationService.js:232-251 | a tick happens only while a timer runs; each firing is the reminder tick for the running timer's hours, and its reminder reaches the screen exactly when one is sent while notifications are enabled |
| `Notifications.UpdateBadge` | src/services/notificationService.js:392-400 | with the badge API the badge shows the count iff it is positive and is cleared otherwise; without it nothing changes |
| `Notifications.UpdateBadgeIdempotent` | src/services/notificationService.js:392-400 | setting the badge twice to the same count is setting it once |
| `Notifications.StreakNotification` | src/services/notificationService.js:334-355 | a notice fires only for 3, 7, 14, 30, 50 or 100 days, its title starts with the day count, and it is tagged and sticky |
| `AddExerciseForm.Initial` | src/components/AddExerciseModal.js:9-10 | both fields start empty |
| `AddExerciseForm.OnNameInput` | src/components/AddExerciseModal.js:74 | the name field takes the typed text and the target field is untouched |
| `AddExerciseForm.OnTargetInput` | src/components/AddExerciseModal.js:94 | the target field only ever holds digits, each digit typed kept |
| `AddExerciseForm.Submit` | src/components/AddExerciseModal.js:12-20 | `onSave` gets the typed name and the base-10 value of the target digits (NaN when empty); both fields are reset to the empty string |
| `AddExerciseForm.TypedTargetReachesList` | src/components/AddExerciseModal.js:12-20 | typing a target and saving appends an exercise whose target is the value of the digits typed, ongoing exactly when that value is positive |

## Left out

- All Supabase queries, upserts, auth and session calls, and the batch-update error path of the rollover: remote I/O whose outcome depends on the network. `DailyCycle.RolledOver` describes the rows a fully successful batch returns.
- `getUserStats` and the other database helpers: Supabase I/O, left out; the default stats `getUserStats` returns when no row exists or on an error, and its `streak || 0` mapping, are not modelled.
- Service-worker registration, the notification display fallbacks, `setInterval`/`setTimeout` scheduling, `localStorage` reads and writes and JSON parsing: browser I/O and timers. Stored lists enter as an already-classified `StoredExercises` value.
- The choice of reminder and encouragement message text via `Math.random()`: cosmetic.
- Progress and increase percentages, confetti and all rendering, modals and animation: floating-point display and UI.
- Reminders.Threshold: computed in exact real arithmetic, where it stays below 90 minutes; in double precision the largest draws round to exactly 90 minutes, and the reminder check covers that by accepting any threshold from 60 to 90 minutes inclusive.
- Calendar.IsNewDay: takes the local calendar fields of both timestamps; parsing the stored ISO string, time zones and daylight-saving shifts are not modelled, and an unparseable date (which makes the comparison false in JavaScript) is not modelled.
- Exercise targets are whole numbers; an undefined or NaN target, which makes an exercise neither completed nor ongoing in JavaScript, is not modelled, because the form's `required` attribute keeps empty targets out.
- Decimal.ParseInt10: models `parseInt` on text that begins with its digits; leading whitespace and a sign are not modelled, because the filtered field never contains them. Numbers are unbounded, so precision loss above 2^53 is not modelled.
- DailyCycle.SanitizeStats: a streak of `NaN` (which `typeof` reports as a number) is not distinguished from other numbers.
- Duplicate ids from two adds in the same millisecond are possible in the source; `Exercises.AddExercise` only promises unique ids when `now` is not already in use.

=== FILE: add_exercise_form.dfy ===
/** The add-exercise form: its two text fields, the digit filter on the
  target field, and what a submit hands to the dashboard.
 */
module AddExerciseForm {
  import opened Wrappers
  import opened Decimal
  import Exercises

  datatype FormState = FormState(name: string, targetText: string)

  /** What `onSave` receives; `targetReps == None` stands for `NaN`. */
  datatype Payload = Payload(name: string, targetReps: Option<nat>)

  datatype Submitted = Submitted(payload: Payload, state: FormState)

  /** The target field only ever holds digits. */
  predicate Valid(st: FormState) {
    AllDigits(st.targetText)
  }

  function Initial(): (st: FormState)
    ensures Valid(st) && st.name == "" && st.targetText == ""
  {
    FormState("", "")
  }

  function OnNameInput(st: FormState, text: string): (r: FormState)
    ensures r.name == text && r.targetText == st.targetText
  {
    st.(name := text)
  }

  /** Typing into the target field stores the typed text with its
    non-digits removed. */
  function OnTargetInput(st: FormState, text: string): (r: FormState)
    ensures Valid(r) && r.name == st.name
    ensures forall c :: IsDigit(c) ==> multiset(r.targetText)[c] == multiset(text)[c]
  {
    st.(targetText := DigitsOnly(text))
  }

  /** `handleSubmit`: the typed name and `parseInt(targetText, 10)` go to
    `onSave`, then both fields are cleared. */
  function Submit(st: FormState): (r: Submitted)
    ensures r.payload.name == st.name
    ensures r.payload.targetReps.Some? <==> st.targetText != [] && IsDigit(st.targetText[0])
    ensures Valid(st) && st.targetText != [] ==> r.payload.targetReps == Some(Value(st.targetText))
    ensures r.state == FormState("", "") && Valid(r.state)
  {
    var parsed := ParseInt10(st.targetText);
    assert Valid(st) && st.targetText != [] ==> parsed == Some(Value(st.targetText)) by {
      if Valid(st) && st.targetText != [] {
        ParseDigitText(st.targetText);
      }
    }
    Submitted(Payload(st.name, parsed), FormState("", ""))
  }

  /** Typing a target and saving puts a new exercise at the end of the list
    whose target is the decimal value of the digits typed, with no reps
    done; the browser's `required` check means the digits are not empty. */
  lemma TypedTargetReachesList(s: seq<Exercises.Exercise>, name: string, typed: string, now: int, createdAt: string)
    requires DigitsOnly(typed) != []
    ensures var sub := Submit(OnTargetInput(OnNameInput(Initial(), name), typed));
      && sub.payload.targetReps == Some(Value(DigitsOnly(typed)))
      && var r := Exercises.AddExercise(s, name, sub.payload.targetReps.value, now, createdAt);
         && r[|s|].name == name
         && r[|s|].targetReps == Value(DigitsOnly(typed))
         && (Exercises.IsOngoing(r[|s|]) <==> Value(DigitsOnly(typed)) > 0)
  {
  }
}

=== FILE: calendar.dfy ===
/** Calendar-day arithmetic behind `isNewDay`: a reset is due when the local
  midnight that starts today lies after the local midnight that started the
  day of the last reset.
 */
module Calendar {
  import opened Wrappers

  const MsPerDay: int := 24 * 60 * 60 * 1000

  /** A timestamp as its local wall-clock fields: `getFullYear()`,
    `getMonth()` (0 for January), `getDate()`, `getHours()`, ... */
  datatype LocalDateTime = LocalDateTime(
    year: nat, month: nat, day: nat,
    hour: nat, minute: nat, second: nat, millis: nat)

  predicate IsLeapYear(y: nat) {
    y % 4 == 0 && (y % 100 != 0 || y % 400 == 0)
  }

  function YearLength(y: nat): nat {
    if IsLeapYear(y) then 366 else 365
  }

  function DaysInMonth(y: nat, m: nat): nat
    requires m < 12
  {
    if m == 1 then (if IsLeapYear(y) then 29 else 28)
    else if m == 3 || m == 5 || m == 8 || m == 10 then 30
    else 31
  }

  predicate Valid(t: LocalDateTime) {
    && t.month < 12
    && 1 <= t.day <= DaysInMonth(t.year, t.month)
    && t.hour < 24 && t.minute < 60 && t.second < 60 && t.millis < 1000
  }

  /** Days of year `y` that lie before month `m` (0-based; 12 is the whole year). */
  function DaysBeforeMonth(y: nat, m: nat): nat
    requires m <= 12
  {
    [0, 31, 59, 90, 120, 151, 181, 212, 243, 273, 304, 334, 365][m]
      + (if m >= 2 && IsLeapYear(y) then 1 else 0)
  }

  /** Days from 1 January of year 0 to 1 January of year `y`. */
  function DaysBeforeYear(y: nat): nat {
    if y == 0 then 0 else DaysBeforeYear(y - 1) + YearLength(y - 1)
  }

  /** The calendar day of `t`, counted from 1 January of year 0. */
  function DayNumber(t: LocalDateTime): nat
    requires Valid(t)
  {
    DaysBeforeYear(t.year) + DaysBeforeMonth(t.year, t.month) + t.day - 1
  }

  /** Local midnight at the start of the day of `t`, as milliseconds
    on the local time line. */
  function StartOfDay(t: LocalDateTime): int
    requires Valid(t)
  {
    DayNumber(t) * MsPerDay
  }

  predicate SameDate(a: LocalDateTime, b: LocalDateTime) {
    a.year == b.year && a.month == b.month && a.day == b.day
  }

  /** The calendar date of `a` comes strictly before that of `b`. */
  predicate DateBefore(a: LocalDateTime, b: LocalDateTime) {
    || a.year < b.year
    || (a.year == b.year && a.month < b.month)
    || (a.year == b.year && a.month == b.month && a.day < b.day)
  }

  /** `isNewDay(lastResetDate)` evaluated at local time `now`; an absent
    (or empty) last reset always counts as a new day. */
  function IsNewDay(lastReset: Option<LocalDateTime>, now: LocalDateTime): (r: bool)
    requires Valid(now)
    requires lastReset.Some? ==> Valid(lastReset.value)
    ensures lastReset.None? ==> r
    ensures lastReset.Some? && r ==> StartOfDay(now) - StartOfDay(lastReset.value) >= MsPerDay
  {
    match lastReset
    case None => true
    case Some(last) => StartOfDay(now) > StartOfDay(last)
  }

  lemma MonthStep(y: nat, m: nat)
    requires m < 12
    ensures DaysBeforeMonth(y, m + 1) == DaysBeforeMonth(y, m) + DaysInMonth(y, m)
  {
  }

  lemma DaysBeforeMonthMonotone(y: nat, m1: nat, m2: nat)
    requires m1 <= m2 <= 12
    ensures DaysBeforeMonth(y, m1) <= DaysBeforeMonth(y, m2)
  {
  }

  /** Every day of a valid date falls inside its year. */
  lemma DayWithinYear(t: LocalDateTime)
    requires Valid(t)
    ensures DaysBeforeMonth(t.year, t.month) + t.day - 1 < YearLength(t.year)
  {
    MonthStep(t.year, t.month);
    DaysBeforeMonthMonotone(t.year, t.month + 1, 12);
  }

  lemma {:induction false} DaysBeforeYearMonotone(y1: nat, y2: nat)
    requires y1 < y2
    ensures DaysBeforeYear(y1) + YearLength(y1) <= DaysBeforeYear(y2)
  {
    if y1 < y2 - 1 {
      DaysBeforeYearMonotone(y1, y2 - 1);
    }
  }

  /** Day numbers follow calendar order. */
  lemma DayNumberMonotone(a: LocalDateTime, b: LocalDateTime)
    requires Valid(a) && Valid(b)
    requires DateBefore(a, b)
    ensures DayNumber(a) < DayNumber(b)
  {
    if a.year < b.year {
      DayWithinYear(a);
      DaysBeforeYearMonotone(a.year, b.year);
    } else if a.month < b.month {
      MonthStep(a.year, a.month);
      DaysBeforeMonthMonotone(a.year, a.month + 1, b.month);
    }
  }

  /** Day numbers identify calendar dates, and their order is calendar order. */
  lemma DayNumberOrder(a: LocalDateTime, b: LocalDateTime)
    requires Valid(a) && Valid(b)
    ensures DayNumber(a) < DayNumber(b) <==> DateBefore(a, b)
    ensures DayNumber(a) == DayNumber(b) <==> SameDate(a, b)
  {
    if DateBefore(a, b) {
      DayNumberMonotone(a, b);
    } else if DateBefore(b, a) {
      DayNumberMonotone(b, a);
    }
  }

  /** With a recorded last reset, a new day has begun exactly when today's
    calendar date is strictly after the date of the last reset. */
  lemma IsNewDayIffLaterDate(last: LocalDateTime, now: LocalDateTime)
    requires Valid(last) && Valid(now)
    ensures IsNewDay(Some(last), now) <==> DateBefore(last, now)
  {
    DayNumberOrder(last, now);
  }

  /** A check later on the same calendar date is never a new day, whatever
    the hours, minutes and seconds of either reading. */
  lemma SameDateIsNotNewDay(last: LocalDateTime, now: LocalDateTime)
    requires Valid(last) && Valid(now) && SameDate(last, now)
    ensures !IsNewDay(Some(last), now)
  {
    DayNumberOrder(last, now);
  }

  /** A clock that has gone back to an earlier date does not start a new day. */
  lemma EarlierDateIsNotNewDay(last: LocalDateTime, now: LocalDateTime)
    requires Valid(last) && Valid(now) && DateBefore(now, last)
    ensures !IsNewDay(Some(last), now)
  {
    DayNumberOrder(now, last);
  }

  /** Local midnight at the start of the calendar day after `t`. */
  function NextDay(t: LocalDateTime): (r: LocalDateTime)
    requires Valid(t)
    ensures Valid(r) && DateBefore(t, r)
    ensures r.hour == 0 && r.minute == 0 && r.second == 0 && r.millis == 0
  {
    if t.day < DaysInMonth(t.year, t.month) then LocalDateTime(t.year, t.month, t.day + 1, 0, 0, 0, 0)
    else if t.month < 11 then LocalDateTime(t.year, t.month + 1, 1, 0, 0, 0, 0)
    else LocalDateTime(t.year + 1, 0, 1, 0, 0, 0, 0)
  }

  /** The day after is exactly one day number later, across month and year ends. */
  lemma NextDayNumber(t: LocalDateTime)
    requires Valid(t)
    ensures DayNumber(NextDay(t)) == DayNumber(t) + 1
  {
    if t.day == DaysInMonth(t.year, t.month) {
      MonthStep(t.year, t.month);
      if t.month < 11 {
        assert NextDay(t) == LocalDateTime(t.year, t.month + 1, 1, 0, 0, 0, 0);
      } else {
        assert DaysBeforeMonth(t.year, 12) == YearLength(t.year);
        assert DaysBeforeYear(t.year + 1) == DaysBeforeYear(t.year) + YearLength(t.year);
        assert NextDay(t) == LocalDateTime(t.year + 1, 0, 1, 0, 0, 0, 0);
      }
    }
  }

  /** Any time on the following calendar date, even just after midnight, is a new day. */
  lemma NextDateIsNewDay(last: LocalDateTime, now: LocalDateTime)
    requires Valid(last) && Valid(now) && SameDate(now, NextDay(last))
    ensures IsNewDay(Some(last), now)
    ensures DayNumber(now) == DayNumber(last) + 1
  {
    NextDayNumber(last);
    DayNumberOrder(now, NextDay(last));
  }
}

=== FILE: daily_cycle.dfy ===
/** The pure part of the daily cycle in the database service: the per-exercise
  rollover computed by `resetExercisesForNewDay`, the user-id guard in front
  of it, and the sanitising of stats before they are written.
 */
module DailyCycle {
  import opened Wrappers
  import opened Exercises

  datatype DbError = MissingUserId | InvalidStats

  /** One row written by the batch update: `{ id, current_reps, target_reps }`. */
  datatype RowUpdate = RowUpdate(id: ExerciseId, currentReps: int, targetReps: int)

  /** Next-day targets keyed by exercise id, as chosen on the celebration screen. */
  type NextDayTargets = map<ExerciseId, int>

  /** `nextDayTargets[id]` is truthy: present and not zero. */
  predicate HasNextDayTarget(m: NextDayTargets, id: ExerciseId) {
    id in m && m[id] != 0
  }

  /** The decay of a missed goal (a zero target counting as one): lowered by one,
    never below one. */
  function DecayedTarget(t: int): (r: int)
    ensures r >= 1
    ensures t >= 2 ==> r == t - 1
    ensures t < 2 ==> r == 1
  {
    Max(1, (if t == 0 then 1 else t) - 1)
  }

  /** The update for one exercise at the day boundary. */
  function RolloverExercise(e: Exercise, m: NextDayTargets): (u: RowUpdate)
    ensures u.id == e.id && u.currentReps == 0
    ensures IsCompleted(e) && HasNextDayTarget(m, e.id) ==> u.targetReps == m[e.id]
    ensures IsCompleted(e) && !HasNextDayTarget(m, e.id) ==> u.targetReps == e.targetReps
    ensures IsOngoing(e) ==> u.targetReps == DecayedTarget(e.targetReps)
    ensures IsOngoing(e) && e.targetReps >= 2 ==> u.targetReps == e.targetReps - 1
  {
    var wasCompleted := Reps(e) >= e.targetReps;
    var newTarget :=
      if wasCompleted && HasNextDayTarget(m, e.id) then m[e.id]
      else if !wasCompleted then DecayedTarget(e.targetReps)
      else e.targetReps;
    RowUpdate(e.id, 0, newTarget)
  }

  /** The whole batch: one update per exercise, same ids, same order. */
  function RolloverUpdates(s: seq<Exercise>, m: NextDayTargets): (r: seq<RowUpdate>)
    ensures |r| == |s|
    ensures forall i :: 0 <= i < |s| ==> r[i].id == s[i].id && r[i].currentReps == 0
    ensures forall i :: 0 <= i < |s| && IsOngoing(s[i]) ==> r[i].targetReps == DecayedTarget(s[i].targetReps)
    ensures forall i :: 0 <= i < |s| && IsCompleted(s[i]) && HasNextDayTarget(m, s[i].id) ==>
      r[i].targetReps == m[s[i].id]
    ensures forall i :: 0 <= i < |s| && IsCompleted(s[i]) && !HasNextDayTarget(m, s[i].id) ==>
      r[i].targetReps == s[i].targetReps
  {
    seq(|s|, i requires 0 <= i < |s| => RolloverExercise(s[i], m))
  }

  /** `resetExercisesForNewDay` up to the batch write: a missing user id is
    refused before anything is computed or written. */
  function ResetExercisesForNewDay(userId: Option<string>, s: seq<Exercise>, m: NextDayTargets): (r: Result<seq<RowUpdate>, DbError>)
    ensures r.Err? <==> !Truthy(userId)
    ensures r.Err? ==> r.error == MissingUserId
    ensures r.Ok? ==> |r.value| == |s| && forall i :: 0 <= i < |s| ==> r.value[i] == RolloverExercise(s[i], m)
  {
    if !Truthy(userId) then Err(MissingUserId) else Ok(RolloverUpdates(s, m))
  }

  /** An exercise after its update row has been written: the row keeps its
    name and creation time. */
  function ApplyRow(e: Exercise, u: RowUpdate): Exercise {
    e.(currentReps := Some(u.currentReps), targetReps := u.targetReps)
  }

  /** The exercise list as the database returns it after a successful rollover. */
  function RolledOver(s: seq<Exercise>, m: NextDayTargets): (r: seq<Exercise>)
    ensures |r| == |s|
    ensures forall i :: 0 <= i < |s| ==>
      r[i] == s[i].(currentReps := Some(0), targetReps := r[i].targetReps)
    ensures forall i :: 0 <= i < |s| ==> r[i].targetReps == RolloverExercise(s[i], m).targetReps
    ensures RepsNonNegative(r)
    ensures UniqueIds(s) ==> UniqueIds(r)
  {
    var u := RolloverUpdates(s, m);
    seq(|s|, i requires 0 <= i < |s| => ApplyRow(s[i], u[i]))
  }

  /** For a known user, a positive target is never raised by the reset unless
    a next-day target was set for it, and never drops below 1; it stays as it
    was exactly when the exercise was completed or the target was already 1. */
  lemma ResetRaisesOnlyThroughNextDayTarget(userId: Option<string>, s: seq<Exercise>, m: NextDayTargets)
    requires Truthy(userId)
    ensures var rows := ResetExercisesForNewDay(userId, s, m);
      && rows.Ok?
      && forall i :: 0 <= i < |s| && s[i].targetReps >= 1 && !HasNextDayTarget(m, s[i].id) ==>
           && 1 <= rows.value[i].targetReps <= s[i].targetReps
           && (rows.value[i].targetReps == s[i].targetReps <==> IsCompleted(s[i]) || s[i].targetReps == 1)
  {
  }

  /** After a rollover nothing is completed unless its new target is zero or
    below; when every new target is positive every exercise is ongoing
    again. */
  lemma RolledOverStartsOngoing(s: seq<Exercise>, m: NextDayTargets)
    requires forall i :: 0 <= i < |s| ==> s[i].targetReps >= 1
    requires forall id :: id in m ==> m[id] >= 0
    ensures OngoingExercises(RolledOver(s, m)) == RolledOver(s, m)
    ensures CompletedExercises(RolledOver(s, m)) == []
  {
    var r := RolledOver(s, m);
    assert forall i :: 0 <= i < |r| ==> IsOngoing(r[i]);
    Seqs.FilterKeepsAll(r, IsOngoing);
    Exercises.CompletedOngoingPartition(r);
  }

  /** Rolling one exercise over `k` days with no next-day target. */
  function RolloverDays(e: Exercise, k: nat): Exercise
    decreases k
  {
    if k == 0 then e else RolloverDays(ApplyRow(e, RolloverExercise(e, map[])), k - 1)
  }

  /** Each missed day lowers the target by one more, down to one: the
    rollover is not idempotent, so it must only run once per new day. */
  lemma {:induction false} MissedDaysDecay(e: Exercise, k: nat)
    requires Reps(e) >= 0 && IsOngoing(e)
    ensures RolloverDays(e, k).targetReps == Max(1, e.targetReps - k)
    ensures k > 0 ==> Reps(RolloverDays(e, k)) == 0
    decreases k
  {
    if k > 0 {
      var next := ApplyRow(e, RolloverExercise(e, map[]));
      assert next.targetReps == Max(1, e.targetReps - 1);
      MissedDaysDecay(next, k - 1);
    }
  }

  /** The stats object handed to `updateUserStats`. `streak` is `None` when
    it is not of type number; the timestamps are ISO strings. */
  datatype StatsInput = StatsInput(streak: Option<int>, lastReset: Option<string>, lastCelebration: Option<string>)

  /** The `user_stats` row that is upserted. */
  datatype StatsRow = StatsRow(userId: string, streak: int, lastReset: string, lastCelebration: Option<string>)

  /** The checks and defaults `updateUserStats` applies before its upsert;
    `stats == None` is a null or non-object argument and `now` is
    `new Date().toISOString()`. */
  function SanitizeStats(userId: Option<string>, stats: Option<StatsInput>, now: string): (r: Result<StatsRow, DbError>)
    ensures !Truthy(userId) ==> r == Err(MissingUserId)
    ensures Truthy(userId) && stats.None? ==> r == Err(InvalidStats)
    ensures r.Ok? <==> Truthy(userId) && stats.Some?
    ensures r.Ok? ==> r.value.userId == userId.value
    ensures r.Ok? && stats.value.streak.Some? ==> r.value.streak == stats.value.streak.value
    ensures r.Ok? && stats.value.streak.None? ==> r.value.streak == 0
    ensures r.Ok? && Truthy(stats.value.lastReset) ==> r.value.lastReset == stats.value.lastReset.value
    ensures r.Ok? && !Truthy(stats.value.lastReset) ==> r.value.lastReset == now
    ensures r.Ok? ==> (r.value.lastCelebration.Some? <==> Truthy(stats.value.lastCelebration))
    ensures r.Ok? && r.value.lastCelebration.Some? ==> r.value.lastCelebration == stats.value.lastCelebration
  {
    if !Truthy(userId) then Err(MissingUserId)
    else if stats.None? then Err(InvalidStats)
    else
      var st := stats.value;
      Ok(StatsRow(
        userId.value,
        st.streak.GetOr(0),
        OrElse(st.lastReset, now),
        if Truthy(st.lastCelebration) then st.lastCelebration else None))
  }

  /** The stats a row describes, read back as the next `updateUserStats` argument. */
  function RowAsStats(row: StatsRow): StatsInput {
    StatsInput(Some(row.streak), Some(row.lastReset), row.lastCelebration)
  }

  /** Sanitising is idempotent: a sanitised row passes through a second
    round unchanged, whatever the clock says then, provided the first
    clock reading was a non-empty timestamp. */
  lemma SanitizeStatsIdempotent(userId: Option<string>, stats: Option<StatsInput>, now: string, later: string)
    requires now != ""
    requires SanitizeStats(userId, stats, now).Ok?
    ensures SanitizeStats(userId, Some(RowAsStats(SanitizeStats(userId, stats, now).value)), later)
      == SanitizeStats(userId, stats, now)
  {
  }
}

=== FILE: decimal.dfy ===
/** Decimal text: the digit filter the exercise form applies to its target
  field, `parseInt(text, 10)` on the filtered text, and the decimal rendering
  of a whole number used in notification titles.
 */
module Decimal {
  import opened Wrappers
  import opened Seqs

  /** `\d` in a JavaScript regular expression without the `u` flag: ASCII 0-9 only. */
  predicate IsDigit(c: char) {
    '0' <= c <= '9'
  }

  predicate AllDigits(s: string) {
    forall i :: 0 <= i < |s| ==> IsDigit(s[i])
  }

  /** A digit string as `String(n)` renders a whole number: non-empty and
    without a leading zero unless it is "0" itself. */
  predicate Canonical(s: string) {
    AllDigits(s) && s != [] && (s[0] == '0' ==> |s| == 1)
  }

  /** The target field's input filter: every non-digit character is removed. */
  function DigitsOnly(s: string): (r: string)
    ensures AllDigits(r)
    ensures forall c :: IsDigit(c) ==> multiset(r)[c] == multiset(s)[c]
    ensures forall c :: !IsDigit(c) ==> c !in r
  {
    Filter(s, IsDigit)
  }

  /** The filter works character by character, so the digits it keeps stay
    in their original order. */
  lemma DigitsOnlyAppend(a: string, b: string)
    ensures DigitsOnly(a + b) == DigitsOnly(a) + DigitsOnly(b)
  {
    FilterAppend(a, b, IsDigit);
  }

  /** Text is left unchanged by the filter exactly when it is all digits. */
  lemma DigitsOnlyFixedPoint(s: string)
    ensures DigitsOnly(s) == s <==> AllDigits(s)
  {
    if AllDigits(s) {
      FilterKeepsAll(s, IsDigit);
    }
  }

  /** Filtering already-filtered text changes nothing. */
  lemma DigitsOnlyIdempotent(s: string)
    ensures DigitsOnly(DigitsOnly(s)) == DigitsOnly(s)
  {
    FilterIdempotent(s, IsDigit);
  }

  function DigitValue(c: char): (d: nat)
    requires IsDigit(c)
    ensures d < 10
  {
    (c as int) - ('0' as int)
  }

  function Digit(d: nat): (c: char)
    requires d < 10
    ensures IsDigit(c) && DigitValue(c) == d
  {
    (('0' as int) + d) as char
  }

  /** Base-10 value of a digit string, most significant digit first. */
  function Value(s: string): nat
    requires AllDigits(s)
  {
    if s == [] then 0 else Value(s[..|s| - 1]) * 10 + DigitValue(s[|s| - 1])
  }

  /** The longest run of digits at the start of `s`. */
  function LeadingDigits(s: string): (r: string)
    ensures AllDigits(r) && r <= s
    ensures |r| < |s| ==> !IsDigit(s[|r|])
  {
    if s == [] || !IsDigit(s[0]) then [] else [s[0]] + LeadingDigits(s[1..])
  }

  /** `parseInt(s, 10)` on text that starts with its digits: the value of the
    leading digit run, `None` standing for `NaN` when there is none. */
  function ParseInt10(s: string): (r: Option<nat>)
    ensures r.None? <==> s == [] || !IsDigit(s[0])
  {
    var d := LeadingDigits(s);
    if d == [] then None else Some(Value(d))
  }

  /** `String(n)` for a whole number. */
  function ShowNat(n: nat): (r: string)
    ensures Canonical(r)
    ensures n > 0 <==> r[0] != '0'
  {
    if n < 10 then [Digit(n)] else ShowNat(n / 10) + [Digit(n % 10)]
  }

  lemma {:induction false} ValueOfShowNat(n: nat)
    ensures Value(ShowNat(n)) == n
  {
    if n >= 10 {
      var r := ShowNat(n);
      assert r[..|r| - 1] == ShowNat(n / 10);
      ValueOfShowNat(n / 10);
    }
  }

  lemma {:induction false} ValuePositive(s: string)
    requires AllDigits(s) && s != [] && s[0] != '0'
    ensures Value(s) >= 1
  {
    if |s| > 1 {
      ValuePositive(s[..|s| - 1]);
    }
  }

  /** Rendering the value of canonical digit text gives the text back. */
  lemma {:induction false} ShowNatOfValue(s: string)
    requires Canonical(s)
    ensures ShowNat(Value(s)) == s
  {
    if |s| > 1 {
      var p := s[..|s| - 1];
      ShowNatOfValue(p);
      ValuePositive(p);
      var v := Value(s);
      assert v / 10 == Value(p) && v % 10 == DigitValue(s[|s| - 1]);
      assert s == p + [s[|s| - 1]];
    }
  }

  /** The leading digit run of a digit string followed by a non-digit (or by
    nothing) is that digit string. */
  lemma {:induction false} LeadingDigitsOfRun(s: string, t: string)
    requires AllDigits(s)
    requires t == [] || !IsDigit(t[0])
    ensures LeadingDigits(s + t) == s
  {
    if s == [] {
      assert s + t == t;
    } else {
      assert (s + t)[1..] == s[1..] + t;
      LeadingDigitsOfRun(s[1..], t);
    }
  }

  /** `parseInt` stops at the first non-digit, so text after a digit run
    does not change the parsed value. */
  lemma ParseStopsAtNonDigit(s: string, t: string)
    requires AllDigits(s) && s != []
    requires t == [] || !IsDigit(t[0])
    ensures ParseInt10(s + t) == Some(Value(s))
  {
    LeadingDigitsOfRun(s, t);
  }

  /** On non-empty digit text, `parseInt` is the base-10 value of the whole text. */
  lemma ParseDigitText(s: string)
    requires AllDigits(s) && s != []
    ensures ParseInt10(s) == Some(Value(s))
  {
    LeadingDigitsOfRun(s, []);
    assert s + [] == s;
  }

  /** Parsing the decimal rendering of a number gives the number back. */
  lemma ParseShowRoundTrip(n: nat)
    ensures ParseInt10(ShowNat(n)) == Some(n)
  {
    ValueOfShowNat(n);
    ParseDigitText(ShowNat(n));
  }
}

=== FILE: exercises.dfy ===
/** The dashboard's exercise list: adding, deleting, adjusting progress,
  the completed/ongoing split shown on screen, and reading the stored list
  with its fall-back to an empty one.
 */
module Exercises {
  import opened Wrappers
  import opened Seqs

  /** Exercise ids are creation times in milliseconds (`Date.now()`). */
  type ExerciseId = int

  datatype Exercise = Exercise(
    id: ExerciseId,
    name: string,
    targetReps: int,
    currentReps: Option<int>,
    createdAt: string)

  /** The rep count of an exercise, a missing count reading as zero. */
  function Reps(e: Exercise): int {
    e.currentReps.GetOr(0)
  }

  predicate IsCompleted(e: Exercise) {
    Reps(e) >= e.targetReps
  }

  predicate IsOngoing(e: Exercise) {
    Reps(e) < e.targetReps
  }

  /** No exercise in the list has a negative rep count. */
  predicate RepsNonNegative(s: seq<Exercise>) {
    forall i :: 0 <= i < |s| ==> Reps(s[i]) >= 0
  }

  predicate UniqueIds(s: seq<Exercise>) {
    forall i, j :: 0 <= i < j < |s| ==> s[i].id != s[j].id
  }

  predicate HasId(s: seq<Exercise>, id: ExerciseId) {
    exists i :: 0 <= i < |s| && s[i].id == id
  }

  /** Appends the exercise the form produced; `now` is `Date.now()` and
    `createdAt` the matching ISO timestamp. */
  function AddExercise(s: seq<Exercise>, name: string, targetReps: int, now: int, createdAt: string): (r: seq<Exercise>)
    ensures |r| == |s| + 1 && r[..|s|] == s
    ensures r[|s|].id == now && r[|s|].name == name && r[|s|].targetReps == targetReps
    ensures Reps(r[|s|]) == 0 && r[|s|].currentReps.Some? && r[|s|].createdAt == createdAt
    ensures RepsNonNegative(s) ==> RepsNonNegative(r)
    ensures UniqueIds(s) && !HasId(s, now) ==> UniqueIds(r)
  {
    s + [Exercise(now, name, targetReps, Some(0), createdAt)]
  }

  function IdIsNot(id: ExerciseId): Exercise -> bool {
    (e: Exercise) => e.id != id
  }

  /** Removes every exercise carrying the given id. */
  function DeleteExercise(s: seq<Exercise>, id: ExerciseId): (r: seq<Exercise>)
    ensures forall i :: 0 <= i < |r| ==> r[i].id != id
    ensures forall e :: e in r <==> e in s && e.id != id
    ensures !HasId(s, id) ==> r == s
    ensures RepsNonNegative(s) ==> RepsNonNegative(r)
  {
    assert !HasId(s, id) ==> Filter(s, IdIsNot(id)) == s by {
      if !HasId(s, id) {
        FilterKeepsAll(s, IdIsNot(id));
      }
    }
    Filter(s, IdIsNot(id))
  }

  /** Deleting works element by element, so the kept exercises stay in
    their original order. */
  lemma DeleteExerciseAppend(a: seq<Exercise>, b: seq<Exercise>, id: ExerciseId)
    ensures DeleteExercise(a + b, id) == DeleteExercise(a, id) + DeleteExercise(b, id)
  {
    FilterAppend(a, b, IdIsNot(id));
  }

  /** Deleting an exercise just added under a fresh id restores the list. */
  lemma DeleteUndoesAdd(s: seq<Exercise>, name: string, targetReps: int, now: int, createdAt: string)
    requires !HasId(s, now)
    ensures DeleteExercise(AddExercise(s, name, targetReps, now, createdAt), now) == s
  {
    var added := Exercise(now, name, targetReps, Some(0), createdAt);
    DeleteExerciseAppend(s, [added], now);
    assert DeleteExercise([added], now) == [];
  }

  /** One tap on the plus or minus button: the matching exercise's count
    moves by `change` and is clamped at zero. */
  function UpdateProgress(s: seq<Exercise>, id: ExerciseId, change: int): (r: seq<Exercise>)
    ensures |r| == |s|
    ensures forall i :: 0 <= i < |s| && s[i].id != id ==> r[i] == s[i]
    ensures forall i :: 0 <= i < |s| && s[i].id == id ==>
      && r[i] == s[i].(currentReps := r[i].currentReps)
      && Reps(r[i]) >= 0
      && (Reps(s[i]) + change >= 0 ==> Reps(r[i]) == Reps(s[i]) + change)
      && (Reps(s[i]) + change < 0 ==> Reps(r[i]) == 0)
    ensures RepsNonNegative(s) ==> RepsNonNegative(r)
    ensures UniqueIds(s) ==> UniqueIds(r)
  {
    seq(|s|, i requires 0 <= i < |s| =>
      if s[i].id == id then s[i].(currentReps := Some(Max(0, Reps(s[i]) + change))) else s[i])
  }

  /** Taking back `k` reps after adding them restores every count, as long
    as no count was negative to begin with. */
  lemma UndoProgress(s: seq<Exercise>, id: ExerciseId, k: int)
    requires k >= 0
    requires RepsNonNegative(s)
    ensures var r := UpdateProgress(UpdateProgress(s, id, k), id, -k);
      |r| == |s| && forall i :: 0 <= i < |s| ==> Reps(r[i]) == Reps(s[i])
  {
  }

  /** The "Completed" section of the dashboard. */
  function CompletedExercises(s: seq<Exercise>): (r: seq<Exercise>)
    ensures forall e :: e in r <==> e in s && IsCompleted(e)
    ensures forall i :: 0 <= i < |r| ==> Reps(r[i]) >= r[i].targetReps
  {
    Filter(s, IsCompleted)
  }

  /** The "Today's Exercises" section: exercises still below target. */
  function OngoingExercises(s: seq<Exercise>): (r: seq<Exercise>)
    ensures forall e :: e in r <==> e in s && IsOngoing(e)
    ensures forall i :: 0 <= i < |r| ==> Reps(r[i]) < r[i].targetReps
  {
    Filter(s, IsOngoing)
  }

  /** The two sections split the list: each exercise is shown in exactly
    one of them, as often as it occurs in the list. */
  lemma CompletedOngoingPartition(s: seq<Exercise>)
    ensures |CompletedExercises(s)| + |OngoingExercises(s)| == |s|
    ensures multiset(CompletedExercises(s)) + multiset(OngoingExercises(s)) == multiset(s)
    ensures forall e :: e in s ==> (e in CompletedExercises(s) <==> e !in OngoingExercises(s))
  {
    assert forall e :: IsOngoing(e) == !IsCompleted(e);
    FilterPartition(s, IsCompleted, IsOngoing);
  }

  /** What a stored `stronghabit-exercises` entry can look like. `Absent`
    and `EmptyText` are both falsy; `NonArray` is JSON that parses to
    something other than an array. */
  datatype StoredExercises = Absent | EmptyText | Malformed | NonArray | ArrayOf(items: seq<Exercise>)

  datatype Loaded = Loaded(exercises: seq<Exercise>, writesEmptyArray: bool)

  /** Reads the stored list on page load. Without storage, on a missing
    entry, on malformed JSON or on a non-array the dashboard starts empty;
    a missing entry is also initialised to `[]`. */
  function InitializeLocalStorage(storageAvailable: bool, stored: StoredExercises): (r: Loaded)
    ensures storageAvailable && stored.ArrayOf? ==> r.exercises == stored.items
    ensures !(storageAvailable && stored.ArrayOf?) ==> r.exercises == []
    ensures r.writesEmptyArray <==> storageAvailable && (stored.Absent? || stored.EmptyText?)
  {
    if !storageAvailable then Loaded([], false)
    else match stored
      case Absent => Loaded([], true)
      case EmptyText => Loaded([], true)
      case Malformed => Loaded([], false)
      case NonArray => Loaded([], false)
      case ArrayOf(items) => Loaded(items, false)
  }

  /** Initialisation is stable: once the empty array has been written,
    the next load reads it back as the same empty list and writes nothing. */
  lemma InitializeIsStable(stored: StoredExercises)
    requires InitializeLocalStorage(true, stored).writesEmptyArray
    ensures InitializeLocalStorage(true, ArrayOf([])) == Loaded(InitializeLocalStorage(true, stored).exercises, false)
  {
  }
}

=== FILE: notifications.dfy ===
/** The notification service's small state and lookup rules: asking for
  permission, the enabled check that gates everything else, starting and
  stopping the reminder timer, the app badge, and streak milestones.
 */
module Notifications {
  import opened Wrappers
  import opened Decimal
  import Exercises
  import Reminders

  datatype Permission = Default | Granted | Denied

  /** Active hours of a running reminder timer. */
  datatype Window = Window(startHour: int, endHour: int)

  /** The service object: whether the browser has notifications and service
    workers, the last permission it learned, and the reminder timer if one
    is running. */
  datatype Service = Service(isSupported: bool, permissionStatus: Permission, reminderWindow: Option<Window>)

  /** How the browser's permission prompt turns out: an answer that is then
    stored, an answer whose storing in `localStorage` throws after the status
    was already taken over, or a thrown error from the prompt itself. */
  datatype PromptAnswer = Answered(permission: Permission) | AnsweredButNotStored(permission: Permission) | PromptFailed

  datatype PermissionReply = Unsupported | Reply(permission: Permission)

  /** The reply to `requestPermission`, whether the user was prompted, and the service afterwards. */
  datatype PermissionRequest = PermissionRequest(reply: PermissionReply, prompted: bool, service: Service)

  /** `isEnabled()`: supported and granted. */
  predicate IsEnabled(svc: Service) {
    svc.isSupported && svc.permissionStatus == Granted
  }

  /** `requestPermission()`; `answer` is what the browser prompt would do if asked. */
  function RequestPermission(svc: Service, answer: PromptAnswer): (r: PermissionRequest)
    ensures !svc.isSupported ==> r.reply == Unsupported && r.service == svc
    ensures IsEnabled(svc) ==> r.reply == Reply(Granted) && r.service == svc
    ensures r.prompted <==> svc.isSupported && svc.permissionStatus != Granted
    ensures r.prompted && answer.Answered? ==>
      r.reply == Reply(answer.permission) && r.service == svc.(permissionStatus := answer.permission)
    ensures r.prompted && answer.AnsweredButNotStored? ==>
      r.reply == Reply(Denied) && r.service == svc.(permissionStatus := answer.permission)
    ensures r.prompted && answer.PromptFailed? ==> r.reply == Reply(Denied) && r.service == svc
  {
    if !svc.isSupported then PermissionRequest(Unsupported, false, svc)
    else if svc.permissionStatus == Granted then PermissionRequest(Reply(Granted), false, svc)
    else match answer
      case Answered(p) => PermissionRequest(Reply(p), true, svc.(permissionStatus := p))
      case AnsweredButNotStored(p) => PermissionRequest(Reply(Denied), true, svc.(permissionStatus := p))
      case PromptFailed => PermissionRequest(Reply(Denied), true, svc)
  }

  /** Once granted, permission is remembered: the service is enabled and the
    next request answers at once without prompting, whatever the prompt
    would say. */
  lemma GrantIsRemembered(svc: Service, answer: PromptAnswer, later: PromptAnswer)
    requires RequestPermission(svc, answer).reply == Reply(Granted)
    ensures IsEnabled(RequestPermission(svc, answer).service)
    ensures var again := RequestPermission(RequestPermission(svc, answer).service, later);
      !again.prompted && again.reply == Reply(Granted)
  {
  }

  /** The reply reports the status the service keeps, except when the prompt
    throws or storing its answer throws; in the latter case a reply of
    `denied` can come with a service that is enabled. */
  lemma ReplyMatchesStatusUnlessStoreFails(svc: Service, answer: PromptAnswer)
    requires svc.isSupported
    ensures var r := RequestPermission(svc, answer);
      answer.Answered? || svc.permissionStatus == Granted ==> r.reply == Reply(r.service.permissionStatus)
    ensures var r := RequestPermission(svc, answer);
      answer.AnsweredButNotStored? && svc.permissionStatus != Granted ==>
        r.reply == Reply(Denied) && (IsEnabled(r.service) <==> answer.permission == Granted)
  {
  }

  /** Whether scheduling started a timer, the service afterwards, and the
    check the new timer makes at once before its first interval. */
  datatype Scheduled = Scheduled(started: bool, service: Service, immediate: Option<TimerFiring>)

  /** `scheduleSmartReminders(startHour, endHour)`: refuses unless enabled;
    otherwise replaces any running timer by one for the given hours and runs
    one check straight away. `hour`, `stored`, `lastReminder`, `now` and
    `threshold` are what that first check sees. */
  function ScheduleSmartReminders(svc: Service, startHour: int, endHour: int, hour: int,
                                  stored: Exercises.StoredExercises, lastReminder: Option<int>,
                                  now: int, threshold: real): (r: Scheduled)
    requires Reminders.InThresholdRange(threshold)
    ensures r.started <==> IsEnabled(svc)
    ensures !r.started ==> r.service == svc && r.immediate.None?
    ensures r.started ==> r.service.reminderWindow == Some(Window(startHour, endHour))
    ensures r.service.isSupported == svc.isSupported && r.service.permissionStatus == svc.permissionStatus
    ensures r.started ==> r.immediate.Some?
    ensures r.started ==> r.immediate.value.tick == Reminders.Tick(hour, startHour, endHour, stored, lastReminder, now, threshold)
    ensures r.started ==> (r.immediate.value.delivered <==> r.immediate.value.tick.outcome.Sent?)
  {
    if !IsEnabled(svc) then Scheduled(false, svc, None)
    else
      var running := ClearReminderInterval(svc).(reminderWindow := Some(Window(startHour, endHour)));
      Scheduled(true, running, TimerTick(running, hour, stored, lastReminder, now, threshold))
  }

  /** `scheduleDailyReminders()`: smart reminders between 9:00 and 21:00. */
  function ScheduleDailyReminders(svc: Service, hour: int, stored: Exercises.StoredExercises,
                                  lastReminder: Option<int>, now: int, threshold: real): (r: Scheduled)
    requires Reminders.InThresholdRange(threshold)
    ensures r.started <==> IsEnabled(svc)
    ensures !r.started ==> r.service == svc && r.immediate.None?
    ensures r.started ==> r.service.reminderWindow == Some(Window(Reminders.DefaultStartHour, Reminders.DefaultEndHour))
    ensures r.started ==> r.immediate.Some?
    ensures r.started ==> (r.immediate.value.delivered <==> r.immediate.value.tick.outcome.Sent?)
    ensures r.started ==>
      r.immediate.value.tick == Reminders.Tick(hour, Reminders.DefaultStartHour, Reminders.DefaultEndHour, stored, lastReminder, now, threshold)
  {
    ScheduleSmartReminders(svc, Reminders.DefaultStartHour, Reminders.DefaultEndHour, hour, stored, lastReminder, now, threshold)
  }

  /** Starting the daily reminders outside 9:00 to 21:00 shows nothing at
    once and leaves the stored reminder time as it was. */
  lemma DailyRemindersQuietOutsideHours(svc: Service, hour: int, stored: Exercises.StoredExercises,
                                        lastReminder: Option<int>, now: int, threshold: real)
    requires Reminders.InThresholdRange(threshold)
    requires hour < Reminders.DefaultStartHour || hour >= Reminders.DefaultEndHour
    ensures var r := ScheduleDailyReminders(svc, hour, stored, lastReminder, now, threshold);
      r.immediate.Some? ==> !r.immediate.value.delivered && r.immediate.value.tick.lastReminder == lastReminder
  {
  }

  /** Starting reminders while an exercise is below target, inside active
    hours and with no reminder recorded yet, shows a reminder at once. */
  lemma ScheduleRemindsAtOnce(svc: Service, startHour: int, endHour: int, hour: int,
                              exercises: seq<Exercises.Exercise>, now: int, threshold: real)
    requires Reminders.InThresholdRange(threshold)
    requires IsEnabled(svc)
    requires Reminders.InActiveHours(hour, startHour, endHour)
    requires exists i :: 0 <= i < |exercises| && Exercises.IsOngoing(exercises[i])
    ensures var r := ScheduleSmartReminders(svc, startHour, endHour, hour, Exercises.ArrayOf(exercises), None, now, threshold);
      && r.immediate.Some?
      && r.immediate.value.delivered
      && r.immediate.value.tick == Reminders.TickResult(Reminders.Sent(|Exercises.OngoingExercises(exercises)|), Some(now))
  {
    Reminders.FirstReminderIsSent(hour, startHour, endHour, exercises, now, threshold);
  }

  /** Scheduling clears the running timer first, so scheduling again leaves
    exactly one timer, for the latest hours, and clearing afterwards stops
    it while keeping the permission state. */
  lemma RescheduleReplacesTimer(svc: Service, start1: int, end1: int, start2: int, end2: int, hour: int,
                                stored: Exercises.StoredExercises, lastReminder: Option<int>, now: int, threshold: real)
    requires Reminders.InThresholdRange(threshold)
    requires IsEnabled(svc)
    ensures var once := ScheduleSmartReminders(svc, start1, end1, hour, stored, lastReminder, now, threshold);
      var twice := ScheduleSmartReminders(once.service, start2, end2, hour, stored, lastReminder, now, threshold);
      twice.started && twice.service == ScheduleSmartReminders(svc, start2, end2, hour, stored, lastReminder, now, threshold).service
    ensures ClearReminderInterval(ScheduleSmartReminders(svc, start1, end1, hour, stored, lastReminder, now, threshold).service)
      == ClearReminderInterval(svc)
  {
  }

  /** `clearReminderInterval()`: no timer runs afterwards. */
  function ClearReminderInterval(svc: Service): (r: Service)
    ensures r.reminderWindow.None?
    ensures r.isSupported == svc.isSupported && r.permissionStatus == svc.permissionStatus
  {
    svc.(reminderWindow := None)
  }

  /** The outcome of one firing of the reminder timer, and whether the
    reminder actually reaches the screen (`showNotification` declines when
    notifications are not enabled, yet the send time is stored anyway). */
  datatype TimerFiring = TimerFiring(tick: Reminders.TickResult, delivered: bool)

  /** The timer callback of a running timer; with no timer there is no tick. */
  function TimerTick(svc: Service, hour: int, stored: Exercises.StoredExercises,
                     lastReminder: Option<int>, now: int, threshold: real): (r: Option<TimerFiring>)
    requires Reminders.InThresholdRange(threshold)
    ensures r.None? <==> svc.reminderWindow.None?
    ensures r.Some? && r.value.delivered ==> r.value.tick.outcome.Sent? && IsEnabled(svc)
    ensures r.Some? ==> (r.value.delivered <==> r.value.tick.outcome.Sent? && IsEnabled(svc))
    ensures r.Some? ==>
      r.value.tick == Reminders.Tick(hour, svc.reminderWindow.value.startHour, svc.reminderWindow.value.endHour, stored, lastReminder, now, threshold)
    ensures r.Some? && r.value.tick.outcome.Sent? ==>
      Reminders.InActiveHours(hour, svc.reminderWindow.value.startHour, svc.reminderWindow.value.endHour)
  {
    match svc.reminderWindow
    case None => None
    case Some(w) =>
      var t := Reminders.Tick(hour, w.startHour, w.endHour, stored, lastReminder, now, threshold);
      Some(TimerFiring(t, t.outcome.Sent? && IsEnabled(svc)))
  }

  /** `updateBadge(count)` on a badge currently showing `shown`; browsers
    without the badge API leave it alone. */
  function UpdateBadge(hasBadgeApi: bool, count: int, shown: Option<int>): (r: Option<int>)
    ensures !hasBadgeApi ==> r == shown
    ensures hasBadgeApi ==> (r.Some? <==> count > 0)
    ensures hasBadgeApi && r.Some? ==> r.value == count
  {
    if !hasBadgeApi then shown
    else if count > 0 then Some(count)
    else None
  }

  /** Setting the badge twice to the same count is setting it once. */
  lemma UpdateBadgeIdempotent(hasBadgeApi: bool, count: int, shown: Option<int>)
    ensures UpdateBadge(hasBadgeApi, count, UpdateBadge(hasBadgeApi, count, shown))
      == UpdateBadge(hasBadgeApi, count, shown)
  {
  }

  datatype Milestone = Milestone(emoji: string, message: string)

  const Milestones: map<int, Milestone> := map[
    3 := Milestone("\U{1F525}", "You're on fire!"),
    7 := Milestone("\U{26A1}", "One week strong!"),
    14 := Milestone("\U{1F48E}", "Two weeks of dedication!"),
    30 := Milestone("\U{1F3C6}", "One month champion!"),
    50 := Milestone("\U{1F680}", "Unstoppable force!"),
    100 := Milestone("\U{1F451}", "Century club member!")]

  datatype Notice = Notice(title: string, body: string, tag: string, requireInteraction: bool)

  /** The notice `showStreakNotification(streakDays)` builds: one only on a
    milestone day, titled with the day count. It is handed to
    `showNotification`, which shows nothing unless the service is enabled
    (see `IsEnabled`). */
  function StreakNotification(streakDays: int): (r: Option<Notice>)
    ensures r.Some? <==> streakDays in {3, 7, 14, 30, 50, 100}
    ensures r.Some? ==> ParseInt10(r.value.title) == Some(streakDays)
    ensures r.Some? ==> r.value.tag == "streak-milestone" && r.value.requireInteraction
  {
    if streakDays in Milestones then
      var m := Milestones[streakDays];
      var days := ShowNat(streakDays);
      var rest := "-Day Streak! " + m.emoji;
      ValueOfShowNat(streakDays);
      ParseStopsAtNonDigit(days, rest);
      Some(Notice(days + rest, m.message, "streak-milestone", true))
    else None
  }
}

=== FILE: reminders.dfy ===
/** The smart-reminder decision of the notification service: each tick of
  the reminder timer either does nothing or sends one workout reminder.
  The clock (`now`, the local hour) and the randomly drawn spacing threshold
  are parameters.
 */
module Reminders {
  import opened Wrappers
  import opened Exercises
  import opened Seqs

  const MinIntervalMs: int := 60 * 60 * 1000
  const MaxIntervalMs: int := 90 * 60 * 1000

  /** The active window `scheduleDailyReminders` uses. */
  const DefaultStartHour: int := 9
  const DefaultEndHour: int := 21

  /** The hour guard of the timer callback: hours in `[startHour, endHour)`. */
  predicate InActiveHours(hour: int, startHour: int, endHour: int) {
    !(hour < startHour || hour >= endHour)
  }

  /** The spacing drawn for one tick: the random fraction of the way from
    the minimum to the maximum interval. */
  function Threshold(random: real): (t: real)
    requires 0.0 <= random < 1.0
    ensures MinIntervalMs as real <= t < MaxIntervalMs as real
    ensures InThresholdRange(t)
  {
    MinIntervalMs as real + random * (MaxIntervalMs - MinIntervalMs) as real
  }

  /** The values the drawn threshold can take. Computed exactly it stays below
    the maximum; computed in double precision the largest random draws round
    up to the maximum itself, so the maximum is admitted. */
  predicate InThresholdRange(threshold: real) {
    MinIntervalMs as real <= threshold <= MaxIntervalMs as real
  }

  /** Why a tick ended as it did. `Unreadable` covers a stored entry whose
    JSON does not parse or is not an array: the method either throws, and its
    `catch` swallows the error, or (for a non-array whose `length` is 0)
    returns at the length check; either way nothing is sent. */
  datatype Outcome =
    | OutsideActiveHours
    | Unreadable
    | NoExercises
    | AllComplete
    | TooSoon
    | Sent(incompleteCount: nat)

  /** The outcome and the stored `stronghabit-last-reminder` afterwards. */
  datatype TickResult = TickResult(outcome: Outcome, lastReminder: Option<int>)

  /** The stored exercise list as the reminder check reads it: a missing or
    empty entry reads as no exercises, anything but an array as a failure
    (it throws, or returns at the length check). */
  function ReadStored(stored: StoredExercises): Option<seq<Exercise>> {
    match stored
    case Absent => Some([])
    case EmptyText => Some([])
    case ArrayOf(items) => Some(items)
    case _ => None
  }

  /** The number of exercises still below target, counted one by one; this
    is the length of the filtered list the reminder reports. */
  function CountOngoing(s: seq<Exercise>): nat {
    if s == [] then 0 else (if IsOngoing(s[0]) then 1 else 0) + CountOngoing(s[1..])
  }

  lemma {:induction false} CountOngoingIsLength(s: seq<Exercise>)
    ensures CountOngoing(s) == |OngoingExercises(s)|
  {
    if s != [] {
      CountOngoingIsLength(s[1..]);
      assert s == [s[0]] + s[1..];
      FilterAppend([s[0]], s[1..], IsOngoing);
    }
  }

  /** `checkExercisesAndNotify` at time `now` (ms) with the stored last
    reminder time and the spacing threshold drawn for this tick. */
  function CheckExercisesAndNotify(stored: StoredExercises, lastReminder: Option<int>, now: int, threshold: real): (r: TickResult)
    requires InThresholdRange(threshold)
    ensures !r.outcome.Sent? ==> r.lastReminder == lastReminder
    ensures r.outcome.Sent? ==> r.lastReminder == Some(now)
    ensures r.outcome.Sent? ==> stored.ArrayOf? || stored.Absent? || stored.EmptyText?
    ensures r.outcome.Sent? ==> var s := ReadStored(stored).value;
      r.outcome.incompleteCount == |OngoingExercises(s)| > 0
    ensures r.outcome.Sent? && lastReminder.Some? ==> now - lastReminder.value >= MinIntervalMs
    ensures r.outcome.Sent? && lastReminder.Some? ==> (now - lastReminder.value) as real >= threshold
    ensures r.outcome.TooSoon? ==> lastReminder.Some? && ((now - lastReminder.value) as real) < threshold
  {
    match ReadStored(stored)
    case None => TickResult(Unreadable, lastReminder)
    case Some(exercises) =>
      if |exercises| == 0 then TickResult(NoExercises, lastReminder)
      else
        CountOngoingIsLength(exercises);
        var incomplete := CountOngoing(exercises);
        if incomplete == 0 then TickResult(AllComplete, lastReminder)
        else if lastReminder.Some? && ((now - lastReminder.value) as real) < threshold then
          TickResult(TooSoon, lastReminder)
        else
          TickResult(Sent(incomplete), Some(now))
  }

  /** One tick of the reminder timer at local hour `hour`. */
  function Tick(hour: int, startHour: int, endHour: int, stored: StoredExercises,
                lastReminder: Option<int>, now: int, threshold: real): (r: TickResult)
    requires InThresholdRange(threshold)
    ensures !InActiveHours(hour, startHour, endHour) ==> r == TickResult(OutsideActiveHours, lastReminder)
    ensures !r.outcome.Sent? ==> r.lastReminder == lastReminder
    ensures r.outcome.Sent? ==> InActiveHours(hour, startHour, endHour) && r.lastReminder == Some(now)
    ensures r.outcome.Sent? && lastReminder.Some? ==> now - lastReminder.value >= MinIntervalMs
    ensures r.outcome.Sent? && lastReminder.Some? ==> (now - lastReminder.value) as real >= threshold
    ensures r.outcome.TooSoon? ==> lastReminder.Some? && ((now - lastReminder.value) as real) < threshold
  {
    if hour < startHour || hour >= endHour then TickResult(OutsideActiveHours, lastReminder)
    else CheckExercisesAndNotify(stored, lastReminder, now, threshold)
  }

  /** An empty list, or one where every exercise has met its target, never
    produces a reminder. */
  lemma NothingToRemind(hour: int, startHour: int, endHour: int, exercises: seq<Exercise>,
                        lastReminder: Option<int>, now: int, threshold: real)
    requires InThresholdRange(threshold)
    requires forall i :: 0 <= i < |exercises| ==> IsCompleted(exercises[i])
    ensures !Tick(hour, startHour, endHour, ArrayOf(exercises), lastReminder, now, threshold).outcome.Sent?
  {
  }

  /** The reported count is the number of exercises still below target, and
    one is sent whenever there is such an exercise and no reminder was
    recorded before. */
  lemma FirstReminderIsSent(hour: int, startHour: int, endHour: int, exercises: seq<Exercise>, now: int, threshold: real)
    requires InThresholdRange(threshold)
    requires InActiveHours(hour, startHour, endHour)
    requires exists i :: 0 <= i < |exercises| && IsOngoing(exercises[i])
    ensures Tick(hour, startHour, endHour, ArrayOf(exercises), None, now, threshold)
      == TickResult(Sent(|OngoingExercises(exercises)|), Some(now))
  {
    var i :| 0 <= i < |exercises| && IsOngoing(exercises[i]);
    assert exercises[i] in OngoingExercises(exercises);
    CountOngoingIsLength(exercises);
    assert ReadStored(ArrayOf(exercises)) == Some(exercises);
    assert CheckExercisesAndNotify(ArrayOf(exercises), None, now, threshold)
      == TickResult(Sent(|OngoingExercises(exercises)|), Some(now));
  }

  /** Below sixty minutes since the last reminder nothing is sent, whatever
    the threshold drawn. */
  lemma NoReminderWithinMinInterval(hour: int, startHour: int, endHour: int, stored: StoredExercises,
                                    last: int, now: int, threshold: real)
    requires InThresholdRange(threshold)
    requires now - last < MinIntervalMs
    ensures !Tick(hour, startHour, endHour, stored, Some(last), now, threshold).outcome.Sent?
  {
  }

  /** Ninety minutes or more after the last reminder, an incomplete exercise
    in active hours always gets a reminder, whatever the threshold drawn. */
  lemma ReminderAfterMaxInterval(hour: int, startHour: int, endHour: int, exercises: seq<Exercise>,
                                 last: int, now: int, threshold: real)
    requires InThresholdRange(threshold)
    requires InActiveHours(hour, startHour, endHour)
    requires exists i :: 0 <= i < |exercises| && IsOngoing(exercises[i])
    requires now - last >= MaxIntervalMs
    ensures Tick(hour, startHour, endHour, ArrayOf(exercises), Some(last), now, threshold)
      == TickResult(Sent(|OngoingExercises(exercises)|), Some(now))
  {
    ThresholdDecides(hour, startHour, endHour, exercises, last, now, threshold);
    assert (now - last) as real >= MaxIntervalMs as real >= threshold;
  }

  /** The drawn threshold is what decides: in active hours, with an exercise
    below target and a recorded reminder, a reminder goes out exactly when
    the time since that reminder has reached the threshold. */
  lemma ThresholdDecides(hour: int, startHour: int, endHour: int, exercises: seq<Exercise>,
                         last: int, now: int, threshold: real)
    requires InThresholdRange(threshold)
    requires InActiveHours(hour, startHour, endHour)
    requires exists i :: 0 <= i < |exercises| && IsOngoing(exercises[i])
    ensures Tick(hour, startHour, endHour, ArrayOf(exercises), Some(last), now, threshold).outcome.Sent?
      <==> (now - last) as real >= threshold
  {
    var i :| 0 <= i < |exercises| && IsOngoing(exercises[i]);
    assert exercises[i] in OngoingExercises(exercises);
    CountOngoingIsLength(exercises);
    assert ReadStored(ArrayOf(exercises)) == Some(exercises);
  }

  /** The dashboard's page-load read and the reminder check read the same
    stored entry alike: wherever the reminder check finds a list, the
    dashboard loads that list, and where the check fails to read the entry
    the dashboard starts empty without writing anything. */
  lemma DashboardAndReminderReadAlike(stored: StoredExercises)
    ensures ReadStored(stored).Some? ==> InitializeLocalStorage(true, stored).exercises == ReadStored(stored).value
    ensures ReadStored(stored).None? ==> InitializeLocalStorage(true, stored) == Loaded([], false)
  {
  }

  /** The inputs of one timer tick. */
  datatype TickInput = TickInput(hour: int, stored: StoredExercises, now: int, threshold: real)

  predicate ValidDraws(ins: seq<TickInput>) {
    forall i :: 0 <= i < |ins| ==> InThresholdRange(ins[i].threshold)
  }

  /** The times at which reminders go out over a run of ticks, and the last
    reminder time stored at the end. */
  datatype RunResult = RunResult(sendTimes: seq<int>, lastReminder: Option<int>)

  function Run(startHour: int, endHour: int, ins: seq<TickInput>, lastReminder: Option<int>): RunResult
    requires ValidDraws(ins)
    decreases |ins|
  {
    if ins == [] then RunResult([], lastReminder)
    else
      var t := ins[0];
      var r := Tick(t.hour, startHour, endHour, t.stored, lastReminder, t.now, t.threshold);
      var rest := Run(startHour, endHour, ins[1..], r.lastReminder);
      if r.outcome.Sent? then RunResult([t.now] + rest.sendTimes, rest.lastReminder)
      else rest
  }

  /** Successive times at least the minimum interval apart. */
  predicate Spaced(times: seq<int>) {
    forall i :: 0 < i < |times| ==> times[i] - times[i - 1] >= MinIntervalMs
  }

  lemma SpacedCons(t: int, rest: seq<int>)
    requires Spaced(rest)
    requires |rest| > 0 ==> rest[0] - t >= MinIntervalMs
    ensures Spaced([t] + rest)
  {
    var times := [t] + rest;
    forall i | 0 < i < |times|
      ensures times[i] - times[i - 1] >= MinIntervalMs
    {
      if i > 1 {
        assert times[i] - times[i - 1] == rest[i - 1] - rest[i - 2];
      }
    }
  }

  /** The stored reminder time at the end of a run is the last send time,
    or the one recorded before the run when nothing was sent. */
  lemma {:induction false} RunEndsAtLastSend(startHour: int, endHour: int, ins: seq<TickInput>, lastReminder: Option<int>)
    requires ValidDraws(ins)
    ensures var r := Run(startHour, endHour, ins, lastReminder);
      && (|r.sendTimes| > 0 ==> r.lastReminder == Some(r.sendTimes[|r.sendTimes| - 1]))
      && (|r.sendTimes| == 0 ==> r.lastReminder == lastReminder)
    decreases |ins|
  {
    if ins != [] {
      var t := ins[0];
      var r := Tick(t.hour, startHour, endHour, t.stored, lastReminder, t.now, t.threshold);
      assert r.outcome.Sent? ==> r.lastReminder == Some(t.now);
      assert !r.outcome.Sent? ==> r.lastReminder == lastReminder;
      assert ValidDraws(ins[1..]);
      var rest := Run(startHour, endHour, ins[1..], r.lastReminder);
      RunEndsAtLastSend(startHour, endHour, ins[1..], r.lastReminder);
      if r.outcome.Sent? {
        var times := [t.now] + rest.sendTimes;
        assert Run(startHour, endHour, ins, lastReminder) == RunResult(times, rest.lastReminder);
        assert times[|times| - 1] == if |rest.sendTimes| > 0 then rest.sendTimes[|rest.sendTimes| - 1] else t.now;
      } else {
        assert Run(startHour, endHour, ins, lastReminder) == rest;
      }
    }
  }

  /** No-spam guarantee over any run of ticks: consecutive reminders are at
    least sixty minutes apart, and the first is sixty minutes after the
    reminder recorded before the run. */
  lemma {:induction false} RemindersAreSpaced(startHour: int, endHour: int, ins: seq<TickInput>, lastReminder: Option<int>)
    requires ValidDraws(ins)
    ensures var r := Run(startHour, endHour, ins, lastReminder);
      && Spaced(r.sendTimes)
      && (lastReminder.Some? && |r.sendTimes| > 0 ==> r.sendTimes[0] - lastReminder.value >= MinIntervalMs)
    decreases |ins|
  {
    if ins != [] {
      var t := ins[0];
      var r := Tick(t.hour, startHour, endHour, t.stored, lastReminder, t.now, t.threshold);
      assert r.outcome.Sent? ==> r.lastReminder == Some(t.now);
      assert r.outcome.Sent? && lastReminder.Some? ==> t.now - lastReminder.value >= MinIntervalMs;
      assert !r.outcome.Sent? ==> r.lastReminder == lastReminder;
      assert ValidDraws(ins[1..]);
      var rest := Run(startHour, endHour, ins[1..], r.lastReminder);
      RemindersAreSpaced(startHour, endHour, ins[1..], r.lastReminder);
      if r.outcome.Sent? {
        SpacedCons(t.now, rest.sendTimes);
        assert Run(startHour, endHour, ins, lastReminder) == RunResult([t.now] + rest.sendTimes, rest.lastReminder);
      } else {
        assert Run(startHour, endHour, ins, lastReminder) == rest;
      }
    }
  }
}

=== FILE: seqs.dfy ===
/** Sequence filtering, the shape shared by every `Array.prototype.filter`
  call and by the digit filter of the exercise form.
 */
module Seqs {

  /** The elements of `s` satisfying `p`, in their original order. */
  function Filter<T(==,!new)>(s: seq<T>, p: T -> bool): (r: seq<T>)
    ensures |r| <= |s|
    ensures forall i :: 0 <= i < |r| ==> p(r[i])
    ensures forall x :: x in r <==> x in s && p(x)
    ensures forall x :: multiset(r)[x] == if p(x) then multiset(s)[x] else 0
  {
    if s == [] then []
    else
      assert s == [s[0]] + s[1..];
      (if p(s[0]) then [s[0]] else []) + Filter(s[1..], p)
  }

  /** Filtering distributes over concatenation: relative order is kept. */
  lemma {:induction false} FilterAppend<T(!new)>(a: seq<T>, b: seq<T>, p: T -> bool)
    ensures Filter(a + b, p) == Filter(a, p) + Filter(b, p)
  {
    if a == [] {
      assert a + b == b;
    } else {
      assert (a + b)[1..] == a[1..] + b;
      FilterAppend(a[1..], b, p);
    }
  }

  /** A sequence every element of which passes the filter is left as it is. */
  lemma {:induction false} FilterKeepsAll<T(!new)>(s: seq<T>, p: T -> bool)
    requires forall i :: 0 <= i < |s| ==> p(s[i])
    ensures Filter(s, p) == s
  {
    if s != [] {
      FilterKeepsAll(s[1..], p);
    }
  }

  /** Filtering twice with the same predicate is filtering once. */
  lemma FilterIdempotent<T(!new)>(s: seq<T>, p: T -> bool)
    ensures Filter(Filter(s, p), p) == Filter(s, p)
  {
    FilterKeepsAll(Filter(s, p), p);
  }

  /** Two complementary filters split a sequence: together they hold every
    element exactly as often as the sequence does. */
  lemma FilterPartition<T(!new)>(s: seq<T>, p: T -> bool, q: T -> bool)
    requires forall x :: q(x) == !p(x)
    ensures |Filter(s, p)| + |Filter(s, q)| == |s|
    ensures multiset(Filter(s, p)) + multiset(Filter(s, q)) == multiset(s)
  {
    var mp, mq := multiset(Filter(s, p)), multiset(Filter(s, q));
    forall x
      ensures (mp + mq)[x] == multiset(s)[x]
    {
      assert q(x) == !p(x);
    }
    assert mp + mq == multiset(s);
    assert |mp + mq| == |mp| + |mq|;
  }
}

=== FILE: wrappers.dfy ===
/** Small failure-carrying datatypes used across the model.

  JavaScript's `null`/`undefined` (and, where the JavaScript tests truthiness with
  `||`, the empty string) become `None`; a thrown `Error` becomes `Err`.
 */
module Wrappers {

  datatype Option<T> = None | Some(value: T) {

    /** `x || fallback` for a value that is either present or absent. */
    function GetOr(fallback: T): T {
      match this
      case Some(v) => v
      case None => fallback
    }
  }

  datatype Result<T, E> = Ok(value: T) | Err(error: E)

  /** JavaScript truthiness of an optional string: `null`, `undefined` and `''` are falsy. */
  predicate Truthy(s: Option<string>) {
    s.Some? && s.value != ""
  }

  /** `s || fallback` on an optional string. */
  function OrElse(s: Option<string>, fallback: string): (r: string)
    ensures Truthy(s) ==> r == s.value
    ensures !Truthy(s) ==> r == fallback
  {
    if Truthy(s) then s.value else fallback
  }

  function Max(a: int, b: int): int {
    if a >= b then a else b
  }
}
